=== FILE: README.md ===
# drned-xmnr action dispatch and chunked-stream fakes, in Dafny

This project models two small sequential pieces of the drned-xmnr NSO
package.

The first is the action dispatcher `ActionHandler` in
`python/drned_xmnr/action.py`. The NSO host calls `cb_action` with an action
name. The dispatcher looks the name up in the closed registry `handlers`,
constructs the handler class it finds there, and keeps that handler in the
single slot `running_handler`. It then runs `perform_action` and copies the
outcome onto the output record with its `error`, `success` and `failure`
leaves. An abort from the host's control thread (`cb_abort`) reaches the
handler through that slot. The model also covers the helper
`param_default` and the pure list rewrite `hack_completions_list` of the CLI
completion callback.

The second is a group of test helpers in `test/unit/mocklib.py`:
- Three of them hand data out in pieces, as a socket does. `StreamData` and `SystemMock.chunk_data` cut data into fixed-size chunks. `get_socket_data` hands the chunks out and then returns `''` forever.
- `FileData` is an append-only buffer whose `read` returns the whole contents at once.
- `nest_mgrs` nests context managers.
- `XtestPatch.__call__` refuses a function that already carries `patchings`, whether from an earlier `XtestPatch` or from `mock.patch`.

Modules:
- `Common` (common.dfy): `Option`, `Result`, `Flatten` (join chunks), `EndsWith`.
- `Params` (params.dfy): `param_default`.
- `Registry` (registry.dfy): the `handlers` map, as a map from YANG action name to a handler-class enumeration.
- `Dispatcher` (dispatcher.dfy): `init`, `cb_action`, `cb_abort`, `action_response`, and a sequence of calls and aborts on one `ActionHandler`.
- `Completion` (completion.dfy): `hack_completions_list`.
- `Chunking` (chunking.dfy): `StreamData`, `chunk_data`, `socket_data`, `get_socket_data`.
- `FileMock` (filemock.dfy): `FileData`.
- `Nesting` (nesting.dfy): `nest_mgrs` and the `XtestPatch.__call__` guard.

The handler classes are not visible, so their behaviour is a parameter:
`Behaviour` says whether a constructor raises and how `perform_action` ends.
`perform_action` ends in one of five ways:
- it returns a dictionary;
- it returns `None`, and then `'error' in None` raises `TypeError` inside the same `try`;
- it raises `ActionError(info)`;
- it raises any other `Exception`;
- it raises a `BaseException` that is not an `Exception` (`KeyboardInterrupt`, `SystemExit`). Neither `except` clause catches it, so it leaves `cb_action` with the output record untouched, after the `finally` clause has emptied the slot.
A constructor can raise any of the three kinds of exception.

A `cb_abort` from the other thread is modelled as one sequential step. It
is delivered while `cb_action` is in progress (flag `abortDuringRun`) or
between calls (`Event.Abort` in `RunSession`).

Facts about the code that the model keeps:
- An unknown action name fails with the message `"Operation not implemented: <name>"`.
- `action_response` copies whichever of the three keys `error`, `success`, `failure` are present, so zero or several fields can be set. `ActionResponseSingleKey` shows that a dictionary with one key sets one field.
- The slot is a plain attribute, read and cleared without a lock.
- A constructor that raises leaves the slot as it was before the call. The `finally` clause clears it anyway.

## Model

| member | source | states |
|---|---|---|
| Params.MatchingValues | python/drned_xmnr/action.py:26 | the matching values are empty exactly when no parameter carries the tag, and the first one is the value of the first matching parameter |
| Params.ParamDefault | python/drned_xmnr/action.py:25-29 | the default is returned when no parameter carries the tag; otherwise the result is `str` of the value of the first matching parameter in list order |
| Params.FirstMatchExists | python/drned_xmnr/action.py:26-29 | whenever some parameter carries the tag there is a first one, so the second branch always picks a defined value |
| Params.LaterMatchesIgnored | python/drned_xmnr/action.py:26-29 | appending parameters after a list that already has a match does not change the result: later matches are ignored |
| Params.OtherTagsIrrelevant | python/drned_xmnr/action.py:26 | dropping all parameters with other tags does not change the result |
| Params.KeepFirst | python/drned_xmnr/action.py:26 | filtering on the tag keeps the first matching parameter at the head of the list |
| Registry.ActionName | python/drned_xmnr/action.py:33-51 | every handler class is registered under exactly one action name |
| Registry.ActionNameRoundTrip | python/drned_xmnr/action.py:33-51 | looking a registered name up and naming its class back gives the name |
| Dispatcher.Init | python/drned_xmnr/action.py:53-54 | the running-handler slot starts empty |
| Dispatcher.ActionResponse | python/drned_xmnr/action.py:87-93 | each of `error`, `success`, `failure` present in the dictionary is copied verbatim onto its field; absent keys leave the field as it was |
| Dispatcher.ActionResponseComposes | python/drned_xmnr/action.py:87-93 | two responses in a row write like one response with the union of the dictionaries, the later winning |
| Dispatcher.ActionResponseIgnoresOtherKeys | python/drned_xmnr/action.py:87-93 | keys other than the three are ignored |
| Dispatcher.ActionResponseSingleKey | python/drned_xmnr/action.py:87-93 | on an unset record, a dictionary with exactly one of the three keys sets exactly that field, to that value |
| Dispatcher.Translate | python/drned_xmnr/action.py:67-76 | a returned dictionary or an `ActionError`'s info goes through `action_response`; any other `Exception`, or a returned `None`, only sets `failure` to "Operation failed"; a `BaseException` outside `Exception` leaves the output untouched |
| Dispatcher.HandlerFor | python/drned_xmnr/action.py:65-66 | the handler built for a registered name is of the class registered under that name, with the call's user info, device name and parameters |
| Dispatcher.CbAbort | python/drned_xmnr/action.py:81-85 | abort leaves the slot unchanged, does nothing when the slot is empty, and otherwise targets exactly the handler in the slot |
| Dispatcher.CbAction | python/drned_xmnr/action.py:62-79 | the slot is empty after every path, including an escaping exception; an unknown name sets `failure` to "Operation not implemented: <name>" and nothing escapes; no abort is delivered unless one was requested; an escaping exception leaves the output untouched |
| Dispatcher.UnknownOperationConstructsNothing | python/drned_xmnr/action.py:63-64 | for an unknown name the outcome does not depend on any handler class: nothing is constructed, and the failure message names the operation |
| Dispatcher.OtherFaultIsFlattened | python/drned_xmnr/action.py:74-76 | an `Exception` other than `ActionError` (or a returned `None`) from a constructed handler is not propagated; the only effect on the output is `failure = "Operation failed"` |
| Dispatcher.BaseExceptionPropagates | python/drned_xmnr/action.py:65-79 | a `BaseException` outside `Exception` from the constructor or `perform_action` escapes `cb_action` with the output untouched, the slot empty, and a later abort reaching nothing |
| Dispatcher.StructuredOutcomeIsForwarded | python/drned_xmnr/action.py:65-76 | for a registered name, the output is determined by constructor and `perform_action` outcomes exactly as the `try`/`except` clauses say |
| Dispatcher.AbortWhileRunningReachesHandler | python/drned_xmnr/action.py:66-67 | an abort while the handler runs calls `abort_action` once, on exactly the handler of this call |
| Dispatcher.AbortWithoutHandlerIsNoOp | python/drned_xmnr/action.py:63-66 | from an idle state, an abort during a call that never stores a handler reaches nothing |
| Dispatcher.AbortAfterActionIsNoOp | python/drned_xmnr/action.py:78-85 | after `cb_action` returns by any path, `cb_abort` finds the slot empty and does nothing |
| Dispatcher.SessionKeepsSlotClear | python/drned_xmnr/action.py:53-85 | from `init`, any sequence of calls and aborts on one `ActionHandler` leaves the slot empty, yields one output per call, and calls `abort_action` exactly on the constructed handlers of the calls an abort interrupted, in order |
| Completion.HackCompletionsList | python/drned_xmnr/action.py:111-119 | the candidates are kept in order; `v + '/CLONE'` is appended exactly when the character is 9 or 32 and the list is a single `v` ending in `/`; otherwise the list is unchanged |
| Completion.HackIsIdempotent | python/drned_xmnr/action.py:111-119 | applying the rewrite twice is the same as applying it once |
| Completion.CloneExtendsDirectory | python/drned_xmnr/action.py:117-119 | the added candidate starts with the directory path and ends in `//CLONE` |
| Chunking.ChunkCountIsCeiling | test/unit/mocklib.py:126-127 | the comprehension bound is `ceil(len(data)/chunk)`: zero only for empty data, and the last chunk starts inside the data |
| Chunking.ChunkData | test/unit/mocklib.py:153-154 | `chunk_data` yields `ceil(len(data)/chunk)` slices, each non-empty and at most `chunk` long, full whenever it ends inside the data |
| Chunking.Slice | test/unit/mocklib.py:126-127 | every slice is non-empty and at most `chunk` long, and full when it ends inside the data |
| Chunking.ChunkDataIsSplit | test/unit/mocklib.py:153-154 | the slice comprehension equals the reference chunking that peels off one full chunk at a time |
| Chunking.WellChunkedIsSplit | test/unit/mocklib.py:126-127 | any list of chunks that joins to the data, with every chunk full but a non-empty last one, is exactly the reference chunking |
| Chunking.ChunkDataRoundTrip | test/unit/mocklib.py:153-154 | for `chunk >= 1` the chunks join back to the data, all but the last are full, the last is non-empty, and their number is the comprehension bound (a ceiling, by `ChunkCountIsCeiling`) |
| Chunking.StreamChunksIsChunkData | test/unit/mocklib.py:122-127 | `StreamData` and `chunk_data` give the same chunks for the same input; `[]` gives no chunks |
| Chunking.NewStreamData | test/unit/mocklib.py:122-127 | a new stream holds a well-formed chunking of the data and is finished exactly when the data is empty |
| Chunking.Next | test/unit/mocklib.py:132-138 | `next` raises `StopIteration` exactly when the stream is finished, and otherwise returns the head chunk and removes it |
| Chunking.Finished | test/unit/mocklib.py:137-138 | `finished()` holds exactly when no chunk is left; `Next` raises `StopIteration` exactly then and `Drain` ends there |
| Chunking.Drain | test/unit/mocklib.py:132-138 | calling `next()` until it raises `StopIteration` yields every chunk, in FIFO order, and leaves the stream finished |
| Chunking.SocketData | test/unit/mocklib.py:150-154 | arming the socket fake stores a well-formed chunking of the data |
| Chunking.InitialFeedIsEmpty | test/unit/mocklib.py:148-151 | the fake as constructed (`socket_data('')`) returns `''` on the first `recv` |
| Chunking.GetSocketData | test/unit/mocklib.py:156-160 | `recv` returns the head chunk and drops it, or `''` without change once the chunks are exhausted; it never raises |
| Chunking.RecvManyInOrder | test/unit/mocklib.py:156-160 | `n` receives return the first `n` chunks joined in order (all of them when `n` is larger) and leave the rest pending |
| Chunking.ExhaustedFeedStaysEmpty | test/unit/mocklib.py:156-160 | once exhausted, every later `recv` returns `''` |
| Chunking.ReadUntilEmpty | test/unit/mocklib.py:156-160 | a client of the fake that receives until `''` reassembles exactly the armed data, after one call per chunk plus one |
| FileMock.Read | test/unit/mocklib.py:103-106 | reading fails with "Cannot read from <name>" exactly while the contents are unset, and otherwise returns them |
| FileMock.Write | test/unit/mocklib.py:108-111 | after a write the file is readable and holds the previous contents (empty if unset) followed by the written data |
| FileMock.WritesAccumulate | test/unit/mocklib.py:108-111 | any non-empty sequence of writes appends everything written, in order; no writes leave the file unchanged |
| Nesting.NestMgrs | test/unit/mocklib.py:24-32 | the yielded list has one entered value per manager, in reverse order of the managers, and `[]` for no managers |
| Nesting.ReversedNestIsInOrder | test/unit/mocklib.py:88-94 | reversing the yielded list, as the callers do before zipping with names, gives the entered values in the managers' order |
| Nesting.NestEventsOrder | test/unit/mocklib.py:24-32 | managers are entered in list order and left in reverse order, with the body in between |
| Nesting.Decorate | test/unit/mocklib.py:44-47 | a function that already has `patchings` is refused with the fixed message; otherwise `patchings` becomes `[self]` |
| Nesting.DecorateOnce | test/unit/mocklib.py:44-47 | a decorated function cannot be decorated again, by any patcher |

## Left out

- NSO host APIs are foreign calls: `dp.Action` registration, `_ncs.dp.action_reply_completion`, `register_data_cb`, `XmnrDataHandler`, and `Xmnr.setup`/`finish`.
- The handler classes (`setup_op`, `config_op`, `transitions_op`, `coverage_op`, `common_op`) are not part of this model. Their constructors and `perform_action` are abstract outcomes in `Behaviour`. `abort_action` appears only as the flag that `perform` receives and as the handler recorded in `aborted`. An exception raised by `abort_action` propagates out of `cb_abort` (action.py:85); that is not modelled.
- The registry keys are the YANG action names behind the generated namespace constants `ns.drned_xmnr_<name>_`. The generated namespace module is not part of this model.
- True concurrency between `cb_abort` and `cb_action` is not modelled. An abort is one step at one interleaving point.
- Overlapping `cb_action` calls on one `ActionHandler` instance are not modelled. The slot `running_handler` belongs to the instance and is shared by every call on it; the model runs calls one after another.
- Logging and `traceback` formatting are not modelled.
- The device name `str(kp[-3][0])` is taken as an input. It is computed before the `try`, so a malformed key path that raises there is not modelled.
- An `ActionError` whose info is not a dictionary would make `action_response` raise inside the `except` clause. That is not modelled: infos and results are string-to-string maps. The only non-dictionary result modelled is `None`.
- `cb_completion` apart from `hack_completions_list` is left out: `glob.glob`, `os.path.isdir`, `prep_path_str` and the reply to the host are file-system I/O and host calls.
- The `mock`/`pyfakefs` plumbing is left out: `ncs_mock`, `system_mock`, `init_mocks`, `MaapiMock`, `XtestMock`, `xtest_patch`, and the body of the wrapper that `XtestPatch.__call__` returns.
- `FileData.__enter__` and `StreamData.__iter__` only return `self` and are left out. `FileData.__exit__` does nothing and returns `None`, so it does not suppress exceptions; it is left out as well.
- Nesting.NestEvents: every `__enter__` is assumed to return normally. A manager whose `__enter__` raises runs no body and leaves only the managers entered before it, in reverse order; that is not modelled.
- Chunking.ChunkData: requires `chunk >= 1`. The source raises `ZeroDivisionError` for 0 (except `StreamData([], 0)`, which gives `[]`). For a negative size the bound `(len(data)+chunk-1)//chunk` floors to zero or below when `len(data) >= 2`, so no chunk is produced and the data is dropped (`chunk_data('abcde', -2)` yields nothing). Only when `len(data) <= 1` do slices come out, and they are empty (`chunk_data('', -1)` yields `''` twice). Its callers in the test library pass positive sizes (the default is 10). The same applies to `StreamChunks`, `NewStreamData`, `SocketData` and `ReadUntilEmpty`.
- Params.ParamDefault: `default` is modelled as a string. The source returns whatever default it is given, without `str`.
- FileMock.Write: appending a value of another type than the current contents (`bytes` to `str`, say) raises `TypeError`. This is not modelled: the contents are a sequence of one element type.
- The mocks follow the Python 2 iterator protocol: `StreamData` defines `next` and no `__next__`, so `for chunk in stream` works only on Python 2. `Drain` models repeated `next()` calls, which behave the same on both.
- Chunking.GetSocketData: once the chunks are exhausted the source returns the `str` `''` (mocklib.py:160). On Python 3 that is not `b''` when the chunks are `bytes`. The model returns the empty sequence of the chunk element type.

=== FILE: chunking.dfy ===
/** The chunked-delivery fakes of the unit-test library: `StreamData` (a
    list of fixed-size chunks handed out one per `next`), and the socket fake
    of `SystemMock`, whose `recv` hands out the chunks of `chunk_data` in
    order and then the empty string forever. Both deliver data in pieces of
    at most the chunk size. */
module Chunking {
  import opened Common

  /** The comprehension bound `(len(data)+chunk-1)//chunk`. For positive
      operands Dafny's `/` agrees with Python's `//`. */
  function ChunkCount(n: nat, chunk: nat): nat
    requires chunk >= 1
  {
    (n + chunk - 1) / chunk
  }

  /** The chunk count is the length divided by the chunk size, rounded up:
      the last chunk starts inside the data and `k` chunks cover all of it. */
  lemma ChunkCountIsCeiling(n: nat, chunk: nat)
    requires chunk >= 1
    ensures var k := ChunkCount(n, chunk);
      n <= k * chunk && (n == 0 <==> k == 0) && (k > 0 ==> (k - 1) * chunk < n)
  {
    var k := ChunkCount(n, chunk);
    var r := (n + chunk - 1) % chunk;
    assert n + chunk - 1 == k * chunk + r;
    assert (k - 1) * chunk == k * chunk - chunk;
  }

  /** Multiplying by a positive chunk size keeps the order of indexes. */
  lemma MulMonotone(i: nat, j: nat, chunk: nat)
    requires i <= j
    ensures i * chunk <= j * chunk
  {
    assert j * chunk == i * chunk + (j - i) * chunk;
  }

  /** Slice `i` of the comprehension, `data[i*chunk:(i+1)*chunk]`; Python
      clamps the slice end at `len(data)`. */
  function Slice<T>(data: seq<T>, chunk: nat, i: nat): (s: seq<T>)
    requires chunk >= 1 && i < ChunkCount(|data|, chunk)
    ensures 1 <= |s| <= chunk
    ensures (i + 1) * chunk <= |data| ==> |s| == chunk
  {
    ChunkCountIsCeiling(|data|, chunk);
    MulMonotone(i, ChunkCount(|data|, chunk) - 1, chunk);
    assert (i + 1) * chunk == i * chunk + chunk;
    data[i * chunk .. Min((i + 1) * chunk, |data|)]
  }

  /** `SystemMock.chunk_data`: the generator of slices, as the list it
      yields. There are `ceil(len(data)/chunk)` slices, each non-empty and
      at most `chunk` long, and every one that ends inside the data is full. */
  function ChunkData<T>(data: seq<T>, chunk: nat): (cs: seq<seq<T>>)
    requires chunk >= 1
    ensures |cs| == ChunkCount(|data|, chunk)
    ensures forall i :: 0 <= i < |cs| ==> 1 <= |cs[i]| <= chunk
    ensures forall i :: 0 <= i < |cs| && (i + 1) * chunk <= |data| ==> |cs[i]| == chunk
  {
    seq(ChunkCount(|data|, chunk), i requires 0 <= i < ChunkCount(|data|, chunk) => Slice(data, chunk, i))
  }

  /** `StreamData.__init__`: the empty list gets no chunks, anything else is
      sliced as in `chunk_data`. */
  function StreamChunks<T>(data: seq<T>, chunk: nat): seq<seq<T>>
    requires chunk >= 1
  {
    if data == [] then [] else ChunkData(data, chunk)
  }

  /** Reference definition of chunking, independent of index arithmetic:
      peel off one full chunk at a time; what is left at the end (if
      anything) is the last chunk. */
  function Split<T>(data: seq<T>, chunk: nat): seq<seq<T>>
    requires chunk >= 1
    decreases |data|
  {
    if |data| == 0 then []
    else if |data| <= chunk then [data]
    else [data[..chunk]] + Split(data[chunk..], chunk)
  }

  /** The shape every chunking of `data` into size-`chunk` pieces must have:
      the pieces concatenate to the data, each is full except the last, and
      the last is non-empty. */
  ghost predicate WellChunked<T>(chunks: seq<seq<T>>, data: seq<T>, chunk: nat)
  {
    && Flatten(chunks) == data
    && (forall i :: 0 <= i < |chunks| - 1 ==> |chunks[i]| == chunk)
    && (|chunks| > 0 ==> 1 <= |chunks[|chunks| - 1]| <= chunk)
  }

  /** The reference chunking has the required shape. */
  lemma {:induction false} SplitWellChunked<T>(data: seq<T>, chunk: nat)
    requires chunk >= 1
    ensures WellChunked(Split(data, chunk), data, chunk)
    decreases |data|
  {
    var s := Split(data, chunk);
    if |data| == 0 {
    } else if |data| <= chunk {
      assert Flatten(s) == data + Flatten(s[1..]);
    } else {
      var rest := Split(data[chunk..], chunk);
      SplitWellChunked(data[chunk..], chunk);
      assert s[1..] == rest;
      assert Flatten(s) == data[..chunk] + data[chunk..];
      assert forall i :: 1 <= i < |s| ==> s[i] == rest[i - 1];
    }
  }

  /** A well-formed chunking is unique: any list of chunks with the shape of
      `WellChunked` is exactly the reference chunking. */
  lemma {:induction false} WellChunkedIsSplit<T>(chunks: seq<seq<T>>, data: seq<T>, chunk: nat)
    requires chunk >= 1
    requires WellChunked(chunks, data, chunk)
    ensures chunks == Split(data, chunk)
    decreases |chunks|
  {
    if |chunks| == 0 {
    } else if |chunks| == 1 {
      assert Flatten(chunks) == chunks[0] + Flatten(chunks[1..]);
      assert data == chunks[0];
    } else {
      var tail := chunks[1..];
      assert Flatten(chunks) == chunks[0] + Flatten(tail);
      assert |chunks[0]| == chunk;
      assert |tail[|tail| - 1]| >= 1 by { assert tail[|tail| - 1] == chunks[|chunks| - 1]; }
      FlattenLastNonEmpty(tail);
      assert data[..chunk] == chunks[0];
      assert data[chunk..] == Flatten(tail);
      assert forall i :: 0 <= i < |tail| - 1 ==> |tail[i]| == chunk by {
        forall i | 0 <= i < |tail| - 1 ensures |tail[i]| == chunk {
          assert tail[i] == chunks[i + 1];
        }
      }
      WellChunkedIsSplit(tail, data[chunk..], chunk);
    }
  }

  /** No chunk of a well-formed chunking is empty, so an empty `recv`
      result can only mean that the chunks are exhausted. */
  lemma WellChunkedNonEmpty<T>(chunks: seq<seq<T>>, data: seq<T>, chunk: nat)
    requires chunk >= 1
    requires WellChunked(chunks, data, chunk)
    ensures forall i :: 0 <= i < |chunks| ==> |chunks[i]| >= 1
  {
  }

  /** A non-empty last chunk makes the concatenation non-empty. */
  lemma {:induction false} FlattenLastNonEmpty<T>(chunks: seq<seq<T>>)
    requires |chunks| > 0 && |chunks[|chunks| - 1]| >= 1
    ensures |Flatten(chunks)| >= 1
    decreases |chunks|
  {
    if |chunks| > 1 {
      assert chunks[1..][|chunks| - 2] == chunks[|chunks| - 1];
      FlattenLastNonEmpty(chunks[1..]);
    }
  }

  /** Euclidean division is unique: a quotient and a remainder in range are
      the ones `/` and `%` compute. */
  lemma DivUnique(x: nat, c: nat, q: int, r: int)
    requires c >= 1 && 0 <= r < c && x == q * c + r
    ensures x / c == q
  {
    var q', r' := x / c, x % c;
    var d := q - q';
    assert d * c == q * c - q' * c;
    assert d * c == r' - r;
  }

  /** `(a + c) / c == a / c + 1` for a positive divisor. */
  lemma DivAddDivisor(a: nat, c: nat)
    requires c >= 1
    ensures (a + c) / c == a / c + 1
  {
    var q, r := a / c, a % c;
    assert a == q * c + r;
    assert (q + 1) * c == q * c + c;
    DivUnique(a + c, c, q + 1, r);
  }

  /** Dropping one full chunk from the data leaves one chunk fewer. */
  lemma ChunkCountTail(n: nat, chunk: nat)
    requires chunk >= 1 && n > chunk
    ensures ChunkCount(n, chunk) == ChunkCount(n - chunk, chunk) + 1
  {
    DivAddDivisor(n - chunk + chunk - 1, chunk);
  }

  /** Consecutive multiples of the chunk size are one chunk apart. */
  lemma MulSucc(i: nat, c: nat)
    ensures (i + 1) * c == i * c + c
  {
  }

  /** Slicing a suffix is slicing the whole at shifted bounds. */
  lemma SliceOfSuffix<T>(data: seq<T>, k: nat, lo: nat, hi: nat)
    requires k <= |data| && lo <= hi <= |data| - k
    ensures data[k..][lo .. hi] == data[lo + k .. hi + k]
  {
  }

  /** Slice `i` of the data is slice `i - 1` of the data without its first
      chunk. */
  lemma SliceShift<T>(data: seq<T>, chunk: nat, i: nat)
    requires chunk >= 1 && |data| > chunk
    requires 1 <= i < ChunkCount(|data|, chunk)
    ensures ChunkCount(|data|, chunk) == ChunkCount(|data| - chunk, chunk) + 1
    ensures Slice(data, chunk, i) == Slice(data[chunk..], chunk, i - 1)
  {
    ChunkCountTail(|data|, chunk);
    ChunkCountIsCeiling(|data|, chunk);
    MulMonotone(i, ChunkCount(|data|, chunk) - 1, chunk);
    assert i * chunk < |data|;
    var lo := (i - 1) * chunk;
    var mid := i * chunk;
    var top := (i + 1) * chunk;
    MulSucc(i - 1, chunk);
    MulSucc(i, chunk);
    assert mid == lo + chunk && top == mid + chunk;
    var hi := Min(mid, |data| - chunk);
    assert hi + chunk == Min(top, |data|);
    var s := Slice(data[chunk..], chunk, i - 1);
    assert s == data[chunk..][lo .. hi];
    SliceOfSuffix(data, chunk, lo, hi);
  }

  /** Dropping the first full chunk from the data shifts every later slice
      down by one position. */
  lemma ChunkDataTail<T>(data: seq<T>, chunk: nat)
    requires chunk >= 1 && |data| > chunk
    ensures ChunkData(data, chunk) == [data[..chunk]] + ChunkData(data[chunk..], chunk)
  {
    ChunkCountTail(|data|, chunk);
    var a, b := ChunkData(data, chunk), ChunkData(data[chunk..], chunk);
    assert |a| == |b| + 1;
    assert a[0] == data[..chunk];
    forall i | 1 <= i < |a|
      ensures a[i] == b[i - 1]
    {
      SliceShift(data, chunk, i);
    }
    assert a == [data[..chunk]] + b;
  }

  /** The comprehension of `chunk_data` computes the reference chunking. */
  lemma {:induction false} ChunkDataIsSplit<T>(data: seq<T>, chunk: nat)
    requires chunk >= 1
    ensures ChunkData(data, chunk) == Split(data, chunk)
    decreases |data|
  {
    var n := |data|;
    if n == 0 {
      ChunkCountIsCeiling(n, chunk);
    } else if n <= chunk {
      assert ChunkCount(n, chunk) == 1 by {
        assert n + chunk - 1 == 1 * chunk + (n - 1);
      }
      assert ChunkData(data, chunk)[0] == data;
    } else {
      ChunkDataTail(data, chunk);
      ChunkDataIsSplit(data[chunk..], chunk);
    }
  }

  /** For any chunk size of at least one, the chunks of `chunk_data`
      concatenate back to the data, every chunk but the last is full, the last
      is non-empty, and there are `ChunkCount` of them, which
      `ChunkCountIsCeiling` shows is `ceil(len(data)/chunk)`. */
  lemma ChunkDataRoundTrip<T>(data: seq<T>, chunk: nat)
    requires chunk >= 1
    ensures WellChunked(ChunkData(data, chunk), data, chunk)
    ensures Flatten(ChunkData(data, chunk)) == data
    ensures |ChunkData(data, chunk)| == ChunkCount(|data|, chunk)
  {
    ChunkDataIsSplit(data, chunk);
    SplitWellChunked(data, chunk);
  }

  /** `StreamData` and `chunk_data` produce the same chunks for the same data
      and chunk size; in particular the empty list gives no chunks. */
  lemma StreamChunksIsChunkData<T>(data: seq<T>, chunk: nat)
    requires chunk >= 1
    ensures StreamChunks(data, chunk) == ChunkData(data, chunk)
    ensures data == [] ==> StreamChunks(data, chunk) == []
  {
    if data == [] {
      ChunkCountIsCeiling(0, chunk);
    }
  }

  // ---------------------------------------------------------------------
  // StreamData as an iterator
  // ---------------------------------------------------------------------

  /** Raised by `next` on a finished stream. */
  datatype StopIteration = StopIteration

  /** A `StreamData` object: the chunks not yet handed out. */
  datatype StreamData<T> = StreamData(data: seq<seq<T>>)

  /** `finished()`: no chunk is left. */
  predicate Finished<T>(s: StreamData<T>)
  {
    s.data == []
  }

  /** `next()`: hands out the first chunk and drops it from the list, or
      raises `StopIteration` when the stream is finished. */
  function Next<T>(s: StreamData<T>): (r: Result<(seq<T>, StreamData<T>), StopIteration>)
    ensures r.Err? <==> Finished(s)
    ensures r.Ok? ==> [r.value.0] + r.value.1.data == s.data
  {
    if Finished(s) then Err(StopIteration) else Ok((s.data[0], StreamData(s.data[1..])))
  }

  /** `StreamData(data, chunk)`. */
  function NewStreamData<T>(data: seq<T>, chunk: nat): (s: StreamData<T>)
    requires chunk >= 1
    ensures WellChunked(s.data, data, chunk)
    ensures Finished(s) <==> |data| == 0
  {
    ChunkDataRoundTrip(data, chunk);
    StreamData(StreamChunks(data, chunk))
  }

  /** Calling `next()` repeatedly until it raises `StopIteration`. The
      chunks come out in FIFO order, all of them, and the stream is finished
      afterwards. */
  method Drain<T>(s: StreamData<T>) returns (out: seq<seq<T>>, rest: StreamData<T>)
    ensures out == s.data
    ensures Finished(rest) && Next(rest).Err?
  {
    out, rest := [], s;
    while true
      invariant out + rest.data == s.data
      decreases |rest.data|
    {
      var r := Next(rest);
      match r {
        case Err(_) =>
          return;
        case Ok((c, next)) =>
          out, rest := out + [c], next;
      }
    }
  }

  // ---------------------------------------------------------------------
  // The socket fake of SystemMock
  // ---------------------------------------------------------------------

  /** The default chunk size of `socket_data`. */
  const DefaultSocketChunk: nat := 10

  /** `socket_data_iter`: the chunks `recv` has not handed out yet. */
  datatype SocketFeed<T> = SocketFeed(pending: seq<seq<T>>)

  /** `socket_data(data, chunk)`: replaces the feed by the chunks of `data`. */
  function SocketData<T>(data: seq<T>, chunk: nat): (f: SocketFeed<T>)
    requires chunk >= 1
    ensures WellChunked(f.pending, data, chunk)
  {
    ChunkDataRoundTrip(data, chunk);
    SocketFeed(ChunkData(data, chunk))
  }

  /** `SystemMock.__init__` arms the socket with `socket_data('')`: the first
      `recv` already reports the end of the stream. */
  lemma InitialFeedIsEmpty<T>()
    ensures SocketData<T>([], DefaultSocketChunk).pending == []
    ensures GetSocketData(SocketData<T>([], DefaultSocketChunk)).0 == []
  {
    var f := SocketData<T>([], DefaultSocketChunk);
    assert |f.pending| == ChunkCount(0, DefaultSocketChunk) == 0;
  }

  /** `get_socket_data`, the `recv` side effect: the next chunk, or the empty
      string once the chunks are exhausted (never raising). */
  function GetSocketData<T>(f: SocketFeed<T>): (r: (seq<T>, SocketFeed<T>))
    ensures f.pending == [] ==> r == ([], f)
    ensures f.pending != [] ==> [r.0] + r.1.pending == f.pending
  {
    if f.pending == [] then ([], f) else (f.pending[0], SocketFeed(f.pending[1..]))
  }

  /** What `n` successive `recv` calls return, concatenated, and the feed
      they leave behind. */
  function RecvMany<T>(f: SocketFeed<T>, n: nat): (seq<T>, SocketFeed<T>)
    decreases n
  {
    if n == 0 then ([], f)
    else
      var first := GetSocketData(f);
      var rest := RecvMany(first.1, n - 1);
      (first.0 + rest.0, rest.1)
  }

  /** `n` calls of `recv` return the first `n` chunks in order (all of them
      if `n` is larger), and every call past the last chunk returns the
      empty string. */
  lemma {:induction false} RecvManyInOrder<T>(f: SocketFeed<T>, n: nat)
    ensures var (got, f') := RecvMany(f, n);
      if n <= |f.pending| then got == Flatten(f.pending[..n]) && f'.pending == f.pending[n..]
      else got == Flatten(f.pending) && f'.pending == []
    decreases n
  {
    if n == 0 {
    } else if f.pending == [] {
      RecvManyInOrder(f, n - 1);
    } else {
      var f' := SocketFeed(f.pending[1..]);
      RecvManyInOrder(f', n - 1);
      if n <= |f.pending| {
        FlattenPrefixCons(f.pending, n);
      } else {
        assert Flatten(f.pending) == f.pending[0] + Flatten(f'.pending);
      }
    }
  }

  /** The first `n` chunks join as the head chunk followed by the next
      `n - 1` chunks. */
  lemma FlattenPrefixCons<T>(chunks: seq<seq<T>>, n: nat)
    requires 1 <= n <= |chunks|
    ensures Flatten(chunks[..n]) == chunks[0] + Flatten(chunks[1..][..n - 1])
  {
    var p := chunks[..n];
    assert p[0] == chunks[0];
    assert p[1..] == chunks[1..][..n - 1];
  }

  /** Once exhausted, the feed returns the empty string on every later call. */
  lemma {:induction false} ExhaustedFeedStaysEmpty<T>(f: SocketFeed<T>, n: nat)
    requires f.pending == []
    ensures RecvMany(f, n) == ([], f)
    decreases n
  {
    if n > 0 {
      var first := GetSocketData(f);
      assert first == ([], f);
      ExhaustedFeedStaysEmpty(f, n - 1);
      var rest := RecvMany(first.1, n - 1);
      assert rest == ([], f);
      assert RecvMany(f, n) == (first.0 + rest.0, rest.1);
      assert first.0 + rest.0 == [];
    }
  }

  /** A client written against the socket fake: it calls `recv` until it
      returns the empty string, appending what it got. For
      a feed armed with `socket_data(data, chunk)` it reassembles `data`. */
  method ReadUntilEmpty<T>(data: seq<T>, chunk: nat) returns (got: seq<T>, calls: nat)
    requires chunk >= 1
    ensures got == data
    ensures calls == |ChunkData(data, chunk)| + 1
  {
    var f := SocketData(data, chunk);
    ghost var all := f.pending;
    WellChunkedNonEmpty(all, data, chunk);
    got, calls := [], 0;
    while true
      invariant all == ChunkData(data, chunk)
      invariant forall i :: 0 <= i < |all| ==> |all[i]| >= 1
      invariant calls <= |all| && f.pending == all[calls..]
      invariant got == Flatten(all[..calls])
      decreases |f.pending|
    {
      var r := GetSocketData(f);
      calls := calls + 1;
      if r.0 == [] {
        assert all[..calls - 1] == all;
        return;
      }
      assert all[..calls] == all[..calls - 1] + [r.0];
      FlattenSnoc(all[..calls - 1], r.0);
      got, f := got + r.0, r.1;
    }
  }
}

=== FILE: common.dfy ===
/** Small value types shared by the dispatcher model and the test-fake model:
    optional values (Python's `None`), results that carry a raised error,
    and the sequence helpers the chunked-stream properties are stated with. */
module Common {

  /** A Python attribute or slot that may hold `None`. */
  datatype Option<+T> = None | Some(value: T)

  /** A call that either returns a value or raises the error it carries. */
  datatype Result<+T, +E> = Ok(value: T) | Err(error: E)

  /** Concatenation of a list of chunks, in list order (`''.join(chunks)`). */
  function Flatten<T>(chunks: seq<seq<T>>): seq<T>
  {
    if |chunks| == 0 then [] else chunks[0] + Flatten(chunks[1..])
  }

  /** Appending one chunk at the end of the list appends its items at the end
      of the concatenation: what lets a reader accumulate chunks one by one. */
  lemma {:induction false} FlattenSnoc<T>(chunks: seq<seq<T>>, c: seq<T>)
    ensures Flatten(chunks + [c]) == Flatten(chunks) + c
  {
    if |chunks| == 0 {
      assert chunks + [c] == [c];
      assert Flatten([c]) == c + Flatten([c][1..]);
    } else {
      calc {
        Flatten(chunks + [c]);
        == { assert (chunks + [c])[1..] == chunks[1..] + [c]; }
        chunks[0] + Flatten(chunks[1..] + [c]);
        == { FlattenSnoc(chunks[1..], c); }
        chunks[0] + (Flatten(chunks[1..]) + c);
      }
    }
  }

  /** Python's `s.endswith(suffix)`. */
  predicate EndsWith(s: string, suffix: string)
  {
    |suffix| <= |s| && s[|s| - |suffix|..] == suffix
  }

  function Min(a: int, b: int): int
  {
    if a <= b then a else b
  }
}

=== FILE: completion.dfy ===
/** The pure list rewrite inside `CompletionHandler.cb_completion`: when TAB
    or space asks for completion and the only candidate is a directory, a
    second, `/CLONE` candidate is added so that the CLI does not end the path
    with whitespace. */
module Completion {
  import opened Common

  /** Completion characters: TAB and space. */
  const Tab := 9
  const Space := 32

  /** The suffix of the extra candidate. */
  const CloneSuffix := "/CLONE"

  /** Whether `hack_completions_list` adds the extra candidate. */
  predicate AddsClone(completionChar: int, values: seq<string>)
  {
    completionChar in [Tab, Space] && |values| == 1 && EndsWith(values[0], "/")
  }

  /** `hack_completions_list(completion_char, values)`, returning the list
      it mutates in place. The original candidates are kept, in order; one
      candidate `v + '/CLONE'` is appended exactly when the completion
      character is TAB or space and the list holds a single `v` ending in
      `'/'`; otherwise the list is unchanged. */
  function HackCompletionsList(completionChar: int, values: seq<string>): (r: seq<string>)
    ensures |values| <= |r| <= |values| + 1
    ensures r[..|values|] == values
    ensures |r| == |values| + 1 <==> AddsClone(completionChar, values)
    ensures |r| == |values| + 1 ==> r[|values|] == values[0] + CloneSuffix
  {
    if completionChar in [Tab, Space] && |values| == 1 then
      var theOnlyOne := values[0];
      if EndsWith(theOnlyOne, "/") then values + [theOnlyOne + CloneSuffix] else values
    else values
  }

  /** Applying the rewrite twice is applying it once: after it fires the list
      has two candidates, so it never fires again. */
  lemma HackIsIdempotent(completionChar: int, values: seq<string>)
    ensures var once := HackCompletionsList(completionChar, values);
      HackCompletionsList(completionChar, once) == once
  {
    var once := HackCompletionsList(completionChar, values);
    if AddsClone(completionChar, values) {
      assert |once| == 2;
    }
  }

  /** The extra candidate extends the directory path: it starts with the
      only candidate and ends with `/CLONE`, so after a directory name ending
      in `/` it reads `dir//CLONE`. */
  lemma CloneExtendsDirectory(completionChar: int, values: seq<string>)
    requires AddsClone(completionChar, values)
    ensures var r := HackCompletionsList(completionChar, values);
      |r| == 2 && r[1][..|values[0]|] == values[0] && EndsWith(r[1], CloneSuffix)
      && EndsWith(r[1], "//CLONE")
  {
    var v := values[0];
    var c := v + CloneSuffix;
    assert c[..|v|] == v;
    assert c[|c| - |CloneSuffix|..] == CloneSuffix;
    assert v[|v| - 1] == '/';
    assert c[|c| - 7..] == [v[|v| - 1]] + CloneSuffix;
  }
}

=== FILE: dispatcher.dfy ===
/** `ActionHandler`: dispatches an action call to the registered handler
    class, keeps the handler it is running in the single slot
    `running_handler` so that an abort from the host's control thread can
    reach it, and translates the handler's outcome onto the action's output
    record (`error`, `success`, `failure`). */
module Dispatcher {
  import opened Common
  import opened Params
  import opened Registry

  /** A result or error-info dictionary as a handler produces it. */
  type Info = map<string, string>

  /** The keys `action_response` copies onto the output record. */
  const ErrorKey := "error"
  const SuccessKey := "success"
  const FailureKey := "failure"

  /** The fixed messages of the dispatcher's own failures. */
  const NotImplementedPrefix := "Operation not implemented: "
  const OperationFailed := "Operation failed"

  /** The action's output record: three independently settable leaves. */
  datatype Output = Output(error: Option<string>, success: Option<string>, failure: Option<string>)

  /** An output record nothing has been written to. */
  const Unset := Output(None, None, None)

  /** The field of the output record a response key names. */
  function Field(o: Output, key: string): Option<string>
  {
    if key == ErrorKey then o.error
    else if key == SuccessKey then o.success
    else if key == FailureKey then o.failure
    else None
  }

  /** `action_response(uinfo, result, output)`: each of the three keys that is
      present in `result` is copied verbatim onto its field; a field whose
      key is absent keeps its previous value. */
  function ActionResponse(result: Info, output: Output): (o: Output)
    ensures forall k :: k in {ErrorKey, SuccessKey, FailureKey} ==>
      Field(o, k) == (if k in result then Some(result[k]) else Field(output, k))
  {
    Output(
      if ErrorKey in result then Some(result[ErrorKey]) else output.error,
      if SuccessKey in result then Some(result[SuccessKey]) else output.success,
      if FailureKey in result then Some(result[FailureKey]) else output.failure)
  }

  /** Two consecutive responses write like one response with the union of
      their dictionaries, the later one winning on shared keys. */
  lemma ActionResponseComposes(first: Info, second: Info, output: Output)
    ensures ActionResponse(second, ActionResponse(first, output)) == ActionResponse(first + second, output)
  {
  }

  /** Keys other than `error`, `success` and `failure` are ignored. */
  lemma ActionResponseIgnoresOtherKeys(result: Info, output: Output)
    ensures ActionResponse(result, output)
         == ActionResponse(result - (result.Keys - {ErrorKey, SuccessKey, FailureKey}), output)
  {
  }

  /** On a fresh output record, a dictionary with exactly one of the three
      keys populates exactly that one field: the single-tag result shape. */
  lemma ActionResponseSingleKey(result: Info, key: string)
    requires key in {ErrorKey, SuccessKey, FailureKey}
    requires forall k :: k in {ErrorKey, SuccessKey, FailureKey} ==> (k in result <==> k == key)
    ensures var o := ActionResponse(result, Unset);
      forall k :: k in {ErrorKey, SuccessKey, FailureKey} ==>
        (Field(o, k).Some? <==> k == key) && (k == key ==> Field(o, k) == Some(result[key]))
  {
  }

  /** An exception out of a handler: the structured `ActionError` carrying
      its info dictionary, any other `Exception`, or a `BaseException` that
      is not an `Exception` (`KeyboardInterrupt`, `SystemExit`, ...), which
      `except Exception` does not catch. */
  datatype Fault = ActionError(info: Info) | OtherException | NonException

  /** How a handler's `perform_action` ends. `ReturnedNone` is a handler that
      returns no dictionary: testing `'error' in None` raises `TypeError`
      inside the same `try`, so it ends like an unstructured fault. */
  datatype Outcome = Returned(result: Info) | ReturnedNone | Raised(fault: Fault)

  /** Whether the outcome leaves `cb_action` as an exception: only a
      `BaseException` outside `Exception` passes both `except` clauses. */
  predicate Escapes(outcome: Outcome)
  {
    outcome == Raised(NonException)
  }

  /** The mapping from a handler outcome onto the output record done by the
      body and the two `except` clauses of `cb_action`. An unstructured
      `Exception` never reaches the caller: its only effect is the fixed
      failure message. An exception that escapes leaves the record as it was. */
  function Translate(outcome: Outcome, output: Output): (o: Output)
    ensures outcome.Returned? ==> o == ActionResponse(outcome.result, output)
    ensures outcome.Raised? && outcome.fault.ActionError? ==> o == ActionResponse(outcome.fault.info, output)
    ensures outcome.ReturnedNone? || outcome == Raised(OtherException) ==>
      o == output.(failure := Some(OperationFailed))
    ensures Escapes(outcome) ==> o == output
  {
    match outcome
    case Returned(result) => ActionResponse(result, output)
    case ReturnedNone => output.(failure := Some(OperationFailed))
    case Raised(ActionError(info)) => ActionResponse(info, output)
    case Raised(OtherException) => output.(failure := Some(OperationFailed))
    case Raised(NonException) => output
  }

  /** The user-session information the host passes with each call. */
  datatype UserInfo = UserInfo(usid: int, thandle: int)

  /** A constructed handler: its class and the constructor arguments
      `handler_cls(uinfo, dev_name, params, log)` (the logger left out). */
  datatype Handler<V> = Handler(cls: HandlerClass, uinfo: UserInfo, devName: string, params: seq<TagValue<V>>)

  /** The dispatcher's state: the slot `running_handler`. */
  datatype ActionHandler<V> = ActionHandler(runningHandler: Option<Handler<V>>)
  {
    predicate Idle()
    {
      runningHandler.None?
    }
  }

  /** `init`: the slot starts empty. */
  function Init<V>(): (d: ActionHandler<V>)
    ensures d.Idle()
  {
    ActionHandler(None)
  }

  /** One action call: `uinfo`, `op_name`, the device name taken from the
      key path, and the parameter list. */
  datatype Request<V> = Request(uinfo: UserInfo, opName: string, devName: string, params: seq<TagValue<V>>)

  /** The behaviour of the handler classes, which the dispatcher cannot see:
      whether constructing a handler raises, and how `perform_action` ends,
      given whether an abort was requested while it ran. */
  datatype Behaviour<!V> = Behaviour(construct: Handler<V> -> Option<Fault>, perform: (Handler<V>, bool) -> Outcome)

  /** What one `cb_action` call leaves behind: the slot, the output record,
      the handler (if any) whose `abort_action` an interleaved `cb_abort`
      called, and whether an exception left the call. */
  datatype Run<V> = Run(state: ActionHandler<V>, output: Output, aborted: Option<Handler<V>>, escaped: bool)

  /** `cb_abort`: reads the slot; calls `abort_action` on the handler found
      there, or does nothing when it is empty. The slot is not changed. */
  function CbAbort<V>(d: ActionHandler<V>): (r: (ActionHandler<V>, Option<Handler<V>>))
    ensures r.0 == d
    ensures d.Idle() <==> r.1.None?
    ensures r.1.Some? ==> d.runningHandler == Some(r.1.value)
  {
    (d, d.runningHandler)
  }

  /** The handler `cb_action` builds for a registered name. */
  function HandlerFor<V>(req: Request<V>): (h: Handler<V>)
    requires req.opName in Handlers
    ensures h.cls == Handlers[req.opName] && ActionName(h.cls) == req.opName
    ensures h.devName == req.devName && h.params == req.params && h.uinfo == req.uinfo
  {
    Handler(Handlers[req.opName], req.uinfo, req.devName, req.params)
  }

  /** `cb_action(uinfo, op_name, kp, params, output)`. When `abortDuringRun`
      holds, a `cb_abort` is delivered while the call is in progress: after
      the handler has been stored in the slot and before the `finally` clause
      clears it (if the handler is never stored, the abort sees the slot as
      it was before the call).

      On every path, including an exception that escapes, the slot is empty
      afterwards. An unknown name fails with "Operation not implemented:
      <name>" and constructs nothing. An escaping exception leaves the
      output record untouched. */
  function CbAction<V>(d: ActionHandler<V>, req: Request<V>, output: Output, b: Behaviour<V>, abortDuringRun: bool): (r: Run<V>)
    ensures r.state.Idle()
    ensures req.opName !in Handlers ==>
      r.output == output.(failure := Some(NotImplementedPrefix + req.opName)) && !r.escaped
    ensures !abortDuringRun ==> r.aborted.None?
    ensures r.escaped ==> r.output == output
  {
    var abortEarly := if abortDuringRun then CbAbort(d).1 else None;
    if req.opName !in Handlers then
      var notImplemented := ActionError(map[FailureKey := NotImplementedPrefix + req.opName]);
      Run(ActionHandler(None), Translate(Raised(notImplemented), output), abortEarly, false)
    else
      var h := HandlerFor(req);
      match b.construct(h)
      case Some(fault) =>
        Run(ActionHandler(None), Translate(Raised(fault), output), abortEarly, Escapes(Raised(fault)))
      case None =>
        var running := ActionHandler(Some(h));
        var target := if abortDuringRun then CbAbort(running).1 else None;
        var outcome := b.perform(h, abortDuringRun);
        Run(ActionHandler(None), Translate(outcome, output), target, Escapes(outcome))
  }

  /** An unknown name is answered without consulting any handler class: the
      outcome does not depend on the handlers' behaviour at all. */
  lemma UnknownOperationConstructsNothing<V>(d: ActionHandler<V>, req: Request<V>, output: Output,
                                             b1: Behaviour<V>, b2: Behaviour<V>, abortDuringRun: bool)
    requires req.opName !in Handlers
    ensures CbAction(d, req, output, b1, abortDuringRun) == CbAction(d, req, output, b2, abortDuringRun)
    ensures CbAction(d, req, output, b1, abortDuringRun).output.failure == Some(NotImplementedPrefix + req.opName)
  {
  }

  /** A registered handler that is constructed and then raises an
      `Exception` other than `ActionError` (or returns no dictionary) leaves
      exactly one trace on the output record, the failure "Operation
      failed", and the exception does not leave the call. */
  lemma OtherFaultIsFlattened<V>(d: ActionHandler<V>, req: Request<V>, output: Output, b: Behaviour<V>, abortDuringRun: bool)
    requires req.opName in Handlers
    requires b.construct(HandlerFor(req)).None?
    requires b.perform(HandlerFor(req), abortDuringRun) in {Raised(OtherException), ReturnedNone}
    ensures CbAction(d, req, output, b, abortDuringRun).output == output.(failure := Some(OperationFailed))
    ensures !CbAction(d, req, output, b, abortDuringRun).escaped
  {
  }

  /** A `BaseException` outside `Exception` from the constructor or from
      `perform_action` passes both `except` clauses: it leaves the call with
      the output record untouched, and the `finally` clause still empties
      the slot, so a later abort does nothing. */
  lemma BaseExceptionPropagates<V>(d: ActionHandler<V>, req: Request<V>, output: Output, b: Behaviour<V>, abortDuringRun: bool)
    requires req.opName in Handlers
    requires b.construct(HandlerFor(req)) == Some(NonException)
          || (b.construct(HandlerFor(req)).None? && b.perform(HandlerFor(req), abortDuringRun) == Raised(NonException))
    ensures var r := CbAction(d, req, output, b, abortDuringRun);
      r.escaped && r.output == output && r.state.Idle() && CbAbort(r.state).1.None?
  {
  }

  /** A registered handler's result dictionary, or the info of the
      `ActionError` it raises (from its constructor or from
      `perform_action`), is forwarded through `action_response`. */
  lemma StructuredOutcomeIsForwarded<V>(d: ActionHandler<V>, req: Request<V>, output: Output, b: Behaviour<V>, abortDuringRun: bool)
    requires req.opName in Handlers
    ensures var h := HandlerFor(req);
      var r := CbAction(d, req, output, b, abortDuringRun);
      match b.construct(h)
      case Some(ActionError(info)) => r.output == ActionResponse(info, output)
      case Some(OtherException) => r.output == output.(failure := Some(OperationFailed)) && !r.escaped
      case Some(NonException) => r.output == output && r.escaped
      case None =>
        match b.perform(h, abortDuringRun)
        case Returned(result) => r.output == ActionResponse(result, output) && !r.escaped
        case Raised(ActionError(info)) => r.output == ActionResponse(info, output) && !r.escaped
        case Raised(NonException) => r.output == output && r.escaped
        case _ => r.output == output.(failure := Some(OperationFailed)) && !r.escaped
  {
  }

  /** An abort delivered while a registered handler runs reaches exactly that
      handler, once, and the handler observes the request. */
  lemma AbortWhileRunningReachesHandler<V>(d: ActionHandler<V>, req: Request<V>, output: Output, b: Behaviour<V>)
    requires req.opName in Handlers
    requires b.construct(HandlerFor(req)).None?
    ensures var r := CbAction(d, req, output, b, true);
      r.aborted == Some(HandlerFor(req))
      && r.output == Translate(b.perform(HandlerFor(req), true), output)
  {
  }

  /** From an idle dispatcher, an abort that arrives while no handler is
      stored (an unknown name, or a constructor that raised) is a no-op. */
  lemma AbortWithoutHandlerIsNoOp<V>(d: ActionHandler<V>, req: Request<V>, output: Output, b: Behaviour<V>)
    requires d.Idle()
    requires req.opName !in Handlers || b.construct(HandlerFor(req)).Some?
    ensures CbAction(d, req, output, b, true).aborted.None?
  {
  }

  /** After `cb_action` returns, by whatever path, a `cb_abort` finds the
      slot empty and does nothing: no late abort reaches a finished handler. */
  lemma AbortAfterActionIsNoOp<V>(d: ActionHandler<V>, req: Request<V>, output: Output, b: Behaviour<V>, abortDuringRun: bool)
    ensures var after := CbAction(d, req, output, b, abortDuringRun).state;
      CbAbort(after) == (after, None)
  {
  }

  // ---------------------------------------------------------------------
  // A session: action calls and stand-alone aborts in sequence on one
  // `ActionHandler`
  // ---------------------------------------------------------------------

  /** One step the host delivers: an action call (with a fresh output
      record, and possibly an abort while it runs) or an abort on its own. */
  datatype Event<V> = Action(req: Request<V>, abortDuringRun: bool) | Abort

  /** What a session produced: the final slot, one output record per action
      call, and one entry per `abort_action` call that was made. */
  datatype Trace<V> = Trace(state: ActionHandler<V>, outputs: seq<Output>, aborted: seq<Handler<V>>)

  /** Runs the events in order from the state `d`: a sequence of calls on
      one `ActionHandler`, which all share its single slot. */
  function RunSession<V>(d: ActionHandler<V>, events: seq<Event<V>>, b: Behaviour<V>): Trace<V>
    decreases |events|
  {
    if |events| == 0 then Trace(d, [], [])
    else
      match events[0]
      case Action(req, abortDuringRun) =>
        var r := CbAction(d, req, Unset, b, abortDuringRun);
        var rest := RunSession(r.state, events[1..], b);
        var hit := if r.aborted.Some? then [r.aborted.value] else [];
        Trace(rest.state, [r.output] + rest.outputs, hit + rest.aborted)
      case Abort =>
        var (d', hit) := CbAbort(d);
        var rest := RunSession(d', events[1..], b);
        Trace(rest.state, rest.outputs, (if hit.Some? then [hit.value] else []) + rest.aborted)
  }

  /** Number of action calls in a list of events. */
  function ActionCount<V>(events: seq<Event<V>>): nat
  {
    if |events| == 0 then 0
    else (if events[0].Action? then 1 else 0) + ActionCount(events[1..])
  }

  /** The handlers whose `abort_action` a session from idle calls, in order:
      one per action call that an abort interrupted after its registered
      handler was constructed. */
  function InterruptedHandlers<V>(events: seq<Event<V>>, b: Behaviour<V>): seq<Handler<V>>
    decreases |events|
  {
    if |events| == 0 then []
    else
      var e := events[0];
      var hit :=
        if e.Action? && e.abortDuringRun && e.req.opName in Handlers && b.construct(HandlerFor(e.req)).None?
        then [HandlerFor(e.req)] else [];
      hit + InterruptedHandlers(events[1..], b)
  }

  /** Starting idle, a sequence of calls on one `ActionHandler` stays idle
      between events, gives one output record per action call, and calls
      `abort_action` exactly on the handlers of its own calls that an abort
      interrupted while they ran, in order: stand-alone aborts never reach
      a handler. */
  lemma {:induction false} SessionKeepsSlotClear<V>(d: ActionHandler<V>, events: seq<Event<V>>, b: Behaviour<V>)
    requires d.Idle()
    ensures var t := RunSession(d, events, b);
      && t.state.Idle()
      && |t.outputs| == ActionCount(events)
      && (forall h :: h in t.aborted ==>
            exists i :: 0 <= i < |events| && events[i].Action? && events[i].abortDuringRun
                        && events[i].req.opName in Handlers && h == HandlerFor(events[i].req))
    ensures RunSession(d, events, b).aborted == InterruptedHandlers(events, b)
    decreases |events|
  {
    if |events| > 0 {
      var t := RunSession(d, events, b);
      match events[0]
      case Action(req, abortDuringRun) => {
        var r := CbAction(d, req, Unset, b, abortDuringRun);
        SessionKeepsSlotClear(r.state, events[1..], b);
        var rest := RunSession(r.state, events[1..], b);
        forall h | h in t.aborted
          ensures exists i :: 0 <= i < |events| && events[i].Action? && events[i].abortDuringRun
                              && events[i].req.opName in Handlers && h == HandlerFor(events[i].req)
        {
          if h in rest.aborted {
            var i :| 0 <= i < |events[1..]| && events[1..][i].Action? && events[1..][i].abortDuringRun
                     && events[1..][i].req.opName in Handlers && h == HandlerFor(events[1..][i].req);
            assert events[i + 1] == events[1..][i];
          } else {
            assert r.aborted == Some(h);
            assert events[0].Action? && events[0].abortDuringRun && req.opName in Handlers;
          }
        }
      }
      case Abort => {
        SessionKeepsSlotClear(d, events[1..], b);
        var rest := RunSession(d, events[1..], b);
        forall h | h in t.aborted
          ensures exists i :: 0 <= i < |events| && events[i].Action? && events[i].abortDuringRun
                              && events[i].req.opName in Handlers && h == HandlerFor(events[i].req)
        {
          var i :| 0 <= i < |events[1..]| && events[1..][i].Action? && events[1..][i].abortDuringRun
                   && events[1..][i].req.opName in Handlers && h == HandlerFor(events[1..][i].req);
          assert events[i + 1] == events[1..][i];
        }
      }
    }
  }
}

=== FILE: filemock.dfy ===
/** `FileData`: the fake file of the unit-test library, an append-only
    buffer that cannot be read before anything has been written to it
    (unless it was created with contents). */
module FileMock {
  import opened Common

  /** A `FileData` object: its name and its contents, `None` while unset. */
  datatype FileData<T> = FileData(name: string, data: Option<seq<T>>)

  /** `RuntimeError('Cannot read from <name>')`. */
  function CannotRead(name: string): string
  {
    "Cannot read from " + name
  }

  /** `read()`: the contents, or the error naming the file while unset. */
  function Read<T>(f: FileData<T>): (r: Result<seq<T>, string>)
    ensures r.Err? <==> f.data.None?
    ensures r.Err? ==> r.error == CannotRead(f.name)
    ensures r.Ok? ==> Some(r.value) == f.data
  {
    match f.data
    case None => Err(CannotRead(f.name))
    case Some(d) => Ok(d)
  }

  /** The contents as `write` sees them: an unset buffer counts as empty. */
  function Contents<T>(f: FileData<T>): seq<T>
  {
    match f.data
    case None => []
    case Some(d) => d
  }

  /** `write(data)`: appends to the contents, first setting an unset buffer
      to the empty string. The file becomes readable, and reading returns
      the previous contents followed by what was written. */
  function Write<T>(f: FileData<T>, data: seq<T>): (f': FileData<T>)
    ensures f'.name == f.name
    ensures Read(f') == Ok(Contents(f) + data)
  {
    var before := if f.data.None? then [] else f.data.value;
    FileData(f.name, Some(before + data))
  }

  /** A sequence of `write` calls, in order. */
  function WriteAll<T>(f: FileData<T>, writes: seq<seq<T>>): FileData<T>
    decreases |writes|
  {
    if |writes| == 0 then f else WriteAll(Write(f, writes[0]), writes[1..])
  }

  /** Writes accumulate in order: after any non-empty sequence of writes the
      file reads as its previous contents followed by everything written;
      with no writes it is unchanged (and still unreadable if it was unset). */
  lemma {:induction false} WritesAccumulate<T>(f: FileData<T>, writes: seq<seq<T>>)
    ensures |writes| == 0 ==> WriteAll(f, writes) == f
    ensures |writes| > 0 ==> Read(WriteAll(f, writes)) == Ok(Contents(f) + Flatten(writes))
    ensures WriteAll(f, writes).name == f.name
    decreases |writes|
  {
    if |writes| > 0 {
      var g := Write(f, writes[0]);
      WritesAccumulate(g, writes[1..]);
      if |writes| > 1 {
        assert Contents(g) == Contents(f) + writes[0];
        assert Flatten(writes) == writes[0] + Flatten(writes[1..]);
        assert Contents(g) + Flatten(writes[1..]) == Contents(f) + Flatten(writes);
      } else {
        assert |writes[1..]| == 0;
        assert Flatten(writes) == writes[0] + Flatten(writes[1..]) == writes[0];
      }
    }
  }
}

=== FILE: nesting.dfy ===
/** The context-manager helpers of the unit-test library: `nest_mgrs`,
    which enters a list of managers one inside the other and yields their
    entered values, and the guard of `XtestPatch.__call__`, which refuses to
    decorate a function that another patcher already decorated. */
module Nesting {
  import opened Common

  /** `nest_mgrs(mgrs)`: the values yielded by the nested `with` blocks,
      where `enter` is what each manager's `__enter__` returns. The inner
      nesting's list gets the outer manager's value appended, so the values
      come out in reverse order of the managers. */
  function NestMgrs<M, V>(mgrs: seq<M>, enter: M -> V): (vs: seq<V>)
    ensures |vs| == |mgrs|
    ensures forall i :: 0 <= i < |mgrs| ==> vs[i] == enter(mgrs[|mgrs| - 1 - i])
    decreases |mgrs|
  {
    if mgrs == [] then []
    else
      var vs := NestMgrs(mgrs[1..], enter);
      vs + [enter(mgrs[0])]
  }

  /** The managers' entered values in the managers' own order. */
  function EnteredInOrder<M, V>(mgrs: seq<M>, enter: M -> V): seq<V>
  {
    seq(|mgrs|, i requires 0 <= i < |mgrs| => enter(mgrs[i]))
  }

  /** The callers pair names with `reversed(nest_mgrs(...))`: reversing the
      yielded list gives the entered values back in the managers' order, so
      name `i` is paired with manager `i`. */
  lemma ReversedNestIsInOrder<M, V>(mgrs: seq<M>, enter: M -> V)
    ensures Reverse(NestMgrs(mgrs, enter)) == EnteredInOrder(mgrs, enter)
  {
  }

  function Reverse<T>(s: seq<T>): (r: seq<T>)
    ensures |r| == |s|
    ensures forall i :: 0 <= i < |s| ==> r[i] == s[|s| - 1 - i]
  {
    seq(|s|, i requires 0 <= i < |s| => s[|s| - 1 - i])
  }

  /** What happens, in order, when `with nest_mgrs(mgrs) as vs: body` runs. */
  datatype Event<M> = Enter(mgr: M) | Body | Exit(mgr: M)

  /** The nested `with` statements: enter the first manager, run the rest of
      the nesting inside it, leave the first manager last. */
  function NestEvents<M>(mgrs: seq<M>): seq<Event<M>>
    decreases |mgrs|
  {
    if mgrs == [] then [Body]
    else [Enter(mgrs[0])] + NestEvents(mgrs[1..]) + [Exit(mgrs[0])]
  }

  /** Managers are entered in list order and left in reverse order, with the
      body in between. */
  lemma {:induction false} NestEventsOrder<M>(mgrs: seq<M>)
    ensures NestEvents(mgrs)
         == seq(|mgrs|, i requires 0 <= i < |mgrs| => Enter(mgrs[i]))
          + [Body]
          + seq(|mgrs|, i requires 0 <= i < |mgrs| => Exit(mgrs[|mgrs| - 1 - i]))
    decreases |mgrs|
  {
    if mgrs != [] {
      var n := |mgrs|;
      var rest := mgrs[1..];
      NestEventsOrder(rest);
      var enters := seq(n, i requires 0 <= i < n => Enter(mgrs[i]));
      var exits := seq(n, i requires 0 <= i < n => Exit(mgrs[n - 1 - i]));
      var enters' := seq(n - 1, i requires 0 <= i < n - 1 => Enter(rest[i]));
      var exits' := seq(n - 1, i requires 0 <= i < n - 1 => Exit(rest[n - 2 - i]));
      assert enters == [Enter(mgrs[0])] + enters';
      assert exits == exits' + [Exit(mgrs[0])];
    }
  }

  // ---------------------------------------------------------------------
  // XtestPatch.__call__
  // ---------------------------------------------------------------------

  /** An `XtestPatch` object with its list of mock generators. */
  datatype XtestPatch<G> = XtestPatch(mockGens: seq<G>)

  /** An entry of a test function's `patchings` list: one left by
      `mock.patch`, or an `XtestPatch`. */
  datatype Patching<G> = MockPatch | Xtest(patch: XtestPatch<G>)

  /** A test function, as far as the guard looks at it: its name and its
      `patchings` attribute, `None` while the function has none. */
  datatype TestFn<G> = TestFn(name: string, patchings: Option<seq<Patching<G>>>)

  const CannotCombine := "cannot combine XtestPatch with mock.patch"

  /** `XtestPatch.__call__(fn)`: raises when `fn` already has `patchings`;
      otherwise sets `fn.patchings` to the single-element list `[self]` and
      returns the wrapper, which `functools.wraps` gives the same name and
      attributes. The assignment mutates `fn` itself, so the returned value
      stands both for `fn` after the call and for the wrapper: the argument
      value passed in is stale afterwards and must not be decorated again. */
  function Decorate<G>(p: XtestPatch<G>, fn: TestFn<G>): (r: Result<TestFn<G>, string>)
    ensures r.Err? <==> fn.patchings.Some?
    ensures r.Err? ==> r.error == CannotCombine
    ensures r.Ok? ==> r.value == TestFn(fn.name, Some([Xtest(p)]))
  {
    if fn.patchings.Some? then Err(CannotCombine)
    else Ok(TestFn(fn.name, Some([Xtest(p)])))
  }

  /** A function can be decorated at most once: decorating the result again,
      with any patcher, raises. */
  lemma DecorateOnce<G>(p: XtestPatch<G>, q: XtestPatch<G>, fn: TestFn<G>)
    requires Decorate(p, fn).Ok?
    ensures Decorate(q, Decorate(p, fn).value) == Err(CannotCombine)
  {
  }
}

=== FILE: params.dfy ===
/** `param_default`: the value of the first action parameter carrying a
    given tag, as a string, or a default when no parameter carries it. */
module Params {

  /** One action parameter: a tag and its value (`p.tag`, `p.v`). */
  datatype TagValue<V> = TagValue(tag: int, v: V)

  /** Whether some parameter carries `tag`. */
  predicate HasTag<V>(params: seq<TagValue<V>>, tag: int)
  {
    exists i :: 0 <= i < |params| && params[i].tag == tag
  }

  /** `i` is the position of the first parameter carrying `tag`. */
  predicate IsFirstMatch<V>(params: seq<TagValue<V>>, tag: int, i: int)
  {
    && 0 <= i < |params|
    && params[i].tag == tag
    && forall j :: 0 <= j < i ==> params[j].tag != tag
  }

  /** The list comprehension `[p.v for p in params if p.tag == tag]`: the
      values of the matching parameters, in list order. */
  function MatchingValues<V>(params: seq<TagValue<V>>, tag: int): (vs: seq<V>)
    ensures |vs| <= |params|
    ensures |vs| == 0 <==> !HasTag(params, tag)
    ensures forall i :: IsFirstMatch(params, tag, i) ==> |vs| > 0 && vs[0] == params[i].v
  {
    if |params| == 0 then []
    else
      var rest := MatchingValues(params[1..], tag);
      assert forall i :: 1 <= i < |params| ==> params[i] == params[1..][i - 1];
      assert forall i :: IsFirstMatch(params, tag, i) && i >= 1 ==> IsFirstMatch(params[1..], tag, i - 1);
      if params[0].tag == tag then [params[0].v] + rest else rest
  }

  /** `param_default(params, tag, default)`; `str` is Python's `str` on a
      parameter value. The default is returned exactly when no parameter
      carries the tag; otherwise the first matching value, converted, is
      returned. */
  function ParamDefault<V>(params: seq<TagValue<V>>, tag: int, default: string, str: V -> string): (r: string)
    ensures !HasTag(params, tag) ==> r == default
    ensures forall i :: IsFirstMatch(params, tag, i) ==> r == str(params[i].v)
  {
    var matching := MatchingValues(params, tag);
    if |matching| == 0 then default else str(matching[0])
  }

  /** When some parameter carries the tag, there is a first one. */
  lemma {:induction false} FirstMatchExists<V>(params: seq<TagValue<V>>, tag: int) returns (i: int)
    requires HasTag(params, tag)
    ensures IsFirstMatch(params, tag, i)
    decreases |params|
  {
    if params[0].tag == tag {
      i := 0;
    } else {
      var k :| 0 <= k < |params| && params[k].tag == tag;
      assert params[1..][k - 1] == params[k];
      var i' := FirstMatchExists(params[1..], tag);
      i := i' + 1;
      forall j | 0 <= j < i
        ensures params[j].tag != tag
      {
        if j > 0 {
          assert params[j] == params[1..][j - 1];
        }
      }
    }
  }

  /** Later matches are ignored: appending parameters after a list that
      already carries the tag does not change the result. */
  lemma LaterMatchesIgnored<V>(params: seq<TagValue<V>>, more: seq<TagValue<V>>, tag: int, default: string, str: V -> string)
    requires HasTag(params, tag)
    ensures ParamDefault(params + more, tag, default, str) == ParamDefault(params, tag, default, str)
  {
    var i := FirstMatchExists(params, tag);
    assert IsFirstMatch(params + more, tag, i) by {
      assert forall j :: 0 <= j <= i ==> (params + more)[j] == params[j];
    }
  }

  /** Parameters with other tags do not matter: dropping them leaves the
      result unchanged. */
  lemma OtherTagsIrrelevant<V>(params: seq<TagValue<V>>, tag: int, default: string, str: V -> string)
    ensures var kept := Keep(params, tag);
      ParamDefault(kept, tag, default, str) == ParamDefault(params, tag, default, str)
  {
    var kept := Keep(params, tag);
    if HasTag(params, tag) {
      var i := FirstMatchExists(params, tag);
      KeepFirst(params, tag, i);
    }
  }

  /** The parameters carrying `tag`, in list order. */
  function Keep<V>(params: seq<TagValue<V>>, tag: int): (kept: seq<TagValue<V>>)
    ensures forall p :: p in kept ==> p in params && p.tag == tag
  {
    if |params| == 0 then []
    else if params[0].tag == tag then [params[0]] + Keep(params[1..], tag)
    else Keep(params[1..], tag)
  }

  /** The first matching parameter heads the filtered list. */
  lemma {:induction false} KeepFirst<V>(params: seq<TagValue<V>>, tag: int, i: int)
    requires IsFirstMatch(params, tag, i)
    ensures IsFirstMatch(Keep(params, tag), tag, 0)
    ensures Keep(params, tag)[0] == params[i]
    decreases |params|
  {
    if i > 0 {
      assert params[1..][i - 1] == params[i];
      assert forall j :: 0 <= j < i - 1 ==> params[1..][j] == params[j + 1];
      KeepFirst(params[1..], tag, i - 1);
    }
  }
}

=== FILE: registry.dfy ===
/** The closed registry `ActionHandler.handlers`: from action name to the
    handler class that performs it. Each key is the YANG action name behind
    the generated namespace constant `ns.drned_xmnr_<name>_`. */
module Registry {

  /** The handler classes named in the registry. */
  datatype HandlerClass =
    | SetupOp
    | DeleteStateOp
    | DisableStateOp
    | EnableStateOp
    | ListStatesOp
    | ViewStateOp
    | RecordStateOp
    | ImportStateFiles
    | ImportConvertCliFiles
    | CheckStates
    | TransitionToStateOp
    | ExploreTransitionsOp
    | WalkTransitionsOp
    | ResetCoverageOp
    | CoverageOp
    | LoadDefaultConfigOp
    | SaveDefaultConfigOp

  /** `ActionHandler.handlers`: fixed at class definition, never mutated. */
  const Handlers: map<string, HandlerClass> := map[
    "setup-xmnr" := SetupOp,
    "delete-state" := DeleteStateOp,
    "disable-state" := DisableStateOp,
    "enable-state" := EnableStateOp,
    "list-states" := ListStatesOp,
    "view-state" := ViewStateOp,
    "record-state" := RecordStateOp,
    "import-state-files" := ImportStateFiles,
    "import-convert-cli-files" := ImportConvertCliFiles,
    "check-states" := CheckStates,
    "transition-to-state" := TransitionToStateOp,
    "explore-transitions" := ExploreTransitionsOp,
    "walk-states" := WalkTransitionsOp,
    "reset" := ResetCoverageOp,
    "collect" := CoverageOp,
    "load-default-config" := LoadDefaultConfigOp,
    "save-default-config" := SaveDefaultConfigOp
  ]

  /** The action name a handler class is registered under. Every class has
      exactly one: the registry is a bijection between its names and the
      handler classes. */
  function ActionName(cls: HandlerClass): (name: string)
    ensures name in Handlers && Handlers[name] == cls
    ensures forall n :: n in Handlers && Handlers[n] == cls ==> n == name
  {
    match cls
    case SetupOp => "setup-xmnr"
    case DeleteStateOp => "delete-state"
    case DisableStateOp => "disable-state"
    case EnableStateOp => "enable-state"
    case ListStatesOp => "list-states"
    case ViewStateOp => "view-state"
    case RecordStateOp => "record-state"
    case ImportStateFiles => "import-state-files"
    case ImportConvertCliFiles => "import-convert-cli-files"
    case CheckStates => "check-states"
    case TransitionToStateOp => "transition-to-state"
    case ExploreTransitionsOp => "explore-transitions"
    case WalkTransitionsOp => "walk-states"
    case ResetCoverageOp => "reset"
    case CoverageOp => "collect"
    case LoadDefaultConfigOp => "load-default-config"
    case SaveDefaultConfigOp => "save-default-config"
  }

  /** Looking a registered name up and naming the class back is the identity. */
  lemma ActionNameRoundTrip(name: string)
    requires name in Handlers
    ensures ActionName(Handlers[name]) == name
  {
  }
}
